=== FILE: README.md ===
# Cough-screening dataset preparation, modelled in Dafny

This project models the two data-shaping scripts of a cough-audio screening
system. These scripts sit between raw recordings and the classifier.

- `fix_data.py` labels a parsed `train.csv` from each row's `filename`. It
  lower-cases the filename and searches it for keywords in a fixed priority
  order: TB keywords, then asthma keywords, then healthy keywords, else
  `OTHER`. It then keeps only the rows labelled `TB`, `ASTHMA` or `NORMAL`.
- `prepare_data.py` assembles the master training table:
  - turns every `.wav` file of the `Healthy` folder into a `NORMAL` row keyed
    `"0"` … `"44"`, skipping files whose analysis fails;
  - makes the legacy table's column names strings, and gives it the label
    `TB` when it has no `label` column;
  - concatenates the legacy rows and the healthy rows;
  - selects the 45 feature columns and `label`, in that order;
  - drops every row with a missing cell;
  - produces nothing when `train.csv` does not exist.

Modules:

- `Wrappers` holds `Option` and `Result`.
- `Strings` holds ASCII lower-casing, the substring test behind Python's `in`,
  and `str()` of an integer.
- `Seqs` holds order-preserving `Map` and `Filter`, and subsequences.
- `Frame` holds the slice of pandas the scripts use. A row is a
  `map<string, Option<Cell>>`, where `None` is a missing cell (NaN). The
  module covers `concat`, column selection and `dropna`.
- `Labels` holds the four diagnostic classes and how they are spelled.
- `FixData` holds `extract_label` and the relabel-and-filter step.
- `PrepareData` holds the extraction wrapper, the healthy rows, the
  legacy-column normalisation and the whole run (`Build`).

The audio analyser (librosa load plus mean MFCCs) is a parameter of type
`string -> Result<Features, string>`, where `Failure` is a raised exception.
The `Healthy` listing and the parsed `train.csv` are parameters too. `None`
for either one means the folder or the file does not exist. The decimal
display of a numeric filename cell is a parameter `render`.

Only the `Healthy` folder is read, and its rows are always `NORMAL`. Legacy
labels and feature values are not validated.

## Model

| member | source | states |
|---|---|---|
| Strings.Lower | fix_data.py:6 | `.lower()` lower-cases each character in place and keeps the length; `LowerIdempotent` and `LowerEqualIffIgnoringCase` state what that means for whole strings |
| Strings.LowerEqualIffIgnoringCase | fix_data.py:6 | two strings lower-case to the same text exactly when they differ only in letter case |
| Strings.LowerIdempotent | fix_data.py:6 | lower-casing an already lower-cased path changes nothing |
| Strings.Contains | fix_data.py:7-12 | the `in` test, as a left-to-right scan; `ContainsIffOccurs` states that it holds exactly when the keyword occurs at some position |
| Strings.ContainsIffOccurs | fix_data.py:7-12 | the `in` test on strings is true exactly when the keyword occurs at some position of the path |
| FixData.ContainsAnyIffMentions | fix_data.py:7-12 | a chain of `or`-ed `in` tests holds exactly when one of its keywords occurs in the path |
| FixData.ExtractLabel | fix_data.py:5-14 | TB exactly when a TB keyword occurs in the lower-cased path; ASTHMA exactly when no TB keyword occurs and an asthma keyword does; NORMAL exactly when neither occurs and a healthy keyword does; OTHER exactly when none occurs |
| FixData.ExtractLabelIgnoresCase | fix_data.py:6 | paths that differ only in letter case get the same label |
| FixData.ExtractLabelOfLowered | fix_data.py:6 | the label of a path equals the label of its lower-cased form |
| FixData.KeywordInsideWord | fix_data.py:7-8 | keywords match inside words: "Healthy/football_v1.wav" is labelled TB, because "football" contains "tb" |
| FixData.MissingFilenameIsOther | fix_data.py:6-14 | a missing filename, whose text is "nan", is labelled OTHER |
| FixData.CellText | fix_data.py:6 | `str(path)` of a filename cell: the text itself, `nan` for a missing cell (see `MissingFilenameIsOther`), and the `render` display of a number |
| FixData.FilenameLabel | fix_data.py:16 | the label `extract_label` gives a row's filename cell, with a missing column read as a missing cell; `Relabel` and `RelabelIsKnown` state how it is used |
| FixData.Relabel | fix_data.py:16 | the row gains or overwrites `label` with the label of its filename; every other cell is kept |
| FixData.RelabelIsKnown | fix_data.py:16-19 | a relabelled row passes the `isin` filter exactly when its filename label is not OTHER |
| FixData.IsKnown | fix_data.py:19 | the `isin(['TB', 'ASTHMA', 'NORMAL'])` test on a row's label cell; `KeepKnown` and `RelabelIsKnown` state what it keeps |
| FixData.KeepKnown | fix_data.py:19 | the kept rows are exactly the input rows labelled TB, ASTHMA or NORMAL, as a subsequence in their original order; each kept row appears as often as in the input; the columns are unchanged |
| Frame.WithColumn | fix_data.py:16 | assigning a column keeps the existing columns in order as a prefix, and appends the new name at the end exactly when it is not there yet, so the names stay unique; `prepare_data.py` line 39 uses the same step for `label` |
| FixData.RelabelAll | fix_data.py:16 | each row is relabelled in place; the row count and well-formedness are kept |
| FixData.FixLabels | fix_data.py:16-19 | the KeyError (`None`) happens exactly when there is no `filename` column; otherwise the columns are the input's plus `label` |
| FixData.FixLabelsKeepsKnownRows | fix_data.py:16-19 | the result rows are exactly the input rows whose filename label is not OTHER, each relabelled, in input order and with every copy kept; a relabelled input row is in the result exactly when its filename label is not OTHER |
| FixData.FixLabelsChangesOnlyLabel | fix_data.py:16-19 | every result row is some input row with only its label cell changed, and that label is never OTHER |
| Labels.NameInjective | fix_data.py:8-14 | the four labels are stored as four distinct texts |
| PrepareData.ExtractFeatures | prepare_data.py:7-14 | the result is `None` exactly when the analysis raises, and otherwise it is the analysis result |
| PrepareData.FinalColumnsShape | prepare_data.py:45 | `final_cols` has 46 distinct entries: `str(0)` … `str(44)` in order, then `label` |
| PrepareData.FinalColumnMembers | prepare_data.py:45 | the members of `final_cols` are `label` and the decimal names of 0 … 44, and `label` is none of those names |
| PrepareData.FeatureCells | prepare_data.py:25 | the keys are exactly the decimal names of 0 … 44, and key `str(i)` holds `features[i]` |
| PrepareData.HealthyRow | prepare_data.py:24-27 | the keys are exactly `"0"` … `"44"` plus `label`; key `str(i)` holds `features[i]`; the label is NORMAL |
| PrepareData.RowsFor | prepare_data.py:21-27 | there are no more rows than files, and every row is a complete NORMAL row on the final columns |
| PrepareData.CollectHealthyRows | prepare_data.py:17-27 | the loop over the files builds exactly the rows of the file-by-file definition |
| PrepareData.RowsForSnoc | prepare_data.py:21-27 | one more file adds its row when its analysis succeeds, and nothing when it fails |
| PrepareData.RowsForAppend | prepare_data.py:21-27 | files are processed in order: the rows for a concatenated listing are the rows for each part, concatenated |
| PrepareData.RowsForCount | prepare_data.py:22-23 | the number of rows equals the number of files whose analysis succeeds |
| PrepareData.RowsForAllSucceed | prepare_data.py:21-27 | when every analysis succeeds, row k is the healthy row of file k's features |
| PrepareData.NewRows | prepare_data.py:17-18 | with no `Healthy` folder there are no new rows; every new row is a healthy row |
| PrepareData.NewTable | prepare_data.py:28 | the frame of the new rows has no columns when there are no rows, and otherwise has the final columns |
| PrepareData.KeyText | prepare_data.py:36 | `str(col)` of a header name: text is kept, an integer is shown by `IntToString`; `NormaliseTextHeader` and `LegacyKeysInjective` state its effect on a header |
| PrepareData.RenameRow | prepare_data.py:36 | renaming a row's keys to strings keeps every cell under the renamed key |
| PrepareData.RenamedRowKeys | prepare_data.py:36 | in a legacy table whose renamed header has no duplicates, every row renames without collisions onto the renamed header |
| PrepareData.LegacyKeysInjective | prepare_data.py:36 | distinct header keys of a legacy row have distinct string names |
| PrepareData.NormaliseColumns | prepare_data.py:36 | column i becomes `str` of header entry i; every cell stays in its row under the renamed column; the result is well-formed |
| PrepareData.NormaliseTextHeader | prepare_data.py:33-36 | on a header of text names, as `read_csv` produces, making names strings leaves every name unchanged |
| PrepareData.DefaultLabel | prepare_data.py:38-39 | `label` is always present afterwards. A table that already had it is unchanged. Otherwise `label` is appended, every row holds TB there, and every other cell is kept |
| PrepareData.LegacyPart | prepare_data.py:33-39 | the normalised legacy table is well-formed, has `label`, and has one row per legacy row |
| Frame.Reindex | prepare_data.py:42 | a row laid out on a column list has exactly those keys, with a missing cell where the row had none |
| Frame.ReindexNarrowing | prepare_data.py:42-46 | laying a row out on wide columns and then on a subset equals laying it out on the subset directly |
| Frame.ReindexOwnColumns | prepare_data.py:46 | a row that already has exactly the selected columns is unchanged by the selection |
| Frame.Concat | prepare_data.py:42 | the columns are the union: the first table's columns in order, then only columns the first table lacks, in the second table's order; rows of the first table come first, then rows of the second; each cell is the row's own value or missing |
| Frame.ConcatColumnsDistinct | prepare_data.py:42 | concatenating tables with unique column names yields unique column names |
| Frame.Project | prepare_data.py:46 | the selection exists exactly when every selected column is present; it has exactly the selected columns in the given order, one row per input row, with the cells unchanged |
| Frame.ConcatThenProject | prepare_data.py:42-46 | selecting after a concat lays out the first table's rows on the selection, followed by the second table's rows |
| Frame.Complete | prepare_data.py:49 | the row test behind `dropna`: every given column holds a value; `DropMissing` states which rows it keeps |
| Frame.DropMissing | prepare_data.py:49 | an input row is kept exactly when it has a value in every column; the kept rows form an order-preserving subsequence, each complete row appearing as often as in the input |
| PrepareData.Build | prepare_data.py:31-55 | the outcome is `NoTrainingTable` exactly when `train.csv` does not exist, whatever the healthy listing |
| PrepareData.MergedColumns | prepare_data.py:42 | the merged columns are the legacy part's columns, plus the final columns when there is at least one healthy row |
| PrepareData.FinalColumnsPresent | prepare_data.py:42-46 | all final columns are present after the merge exactly when there is a healthy row or the legacy table has all 45 feature columns |
| PrepareData.BuildFailsOnlyOnMissingFeatures | prepare_data.py:42-46 | the selection stops the run exactly when there are no healthy rows and the legacy table lacks a feature column; `label` is never the missing column |
| PrepareData.HealthyRowsUnchangedByProjection | prepare_data.py:46 | selecting the final columns leaves the healthy rows unchanged |
| PrepareData.BuildMasterRows | prepare_data.py:41-49 | the master rows are the complete legacy rows, cut to the final columns and in order, followed by every healthy row in file order |
| PrepareData.BuildMasterShape | prepare_data.py:45-49 | the master columns are exactly `"0"` … `"44"`, `label`; no row has a missing cell; there are at most as many rows as legacy rows plus healthy rows |
| PrepareData.KeptRowMatches | prepare_data.py:46-49 | a row that survives selection and `dropna` comes from an input row that had a value in every selected column, with the same values there |
| PrepareData.KeptRowsMatch | prepare_data.py:46-49 | in the kept rows of a part followed by other rows, each row before the others matches some row of that part on the selected columns |
| PrepareData.BuildLabelsLegacyRowsTB | prepare_data.py:38-49 | when `train.csv` had no `label` column, every legacy row in the master table is labelled TB |
| PrepareData.BuildLegacyRowsFromTrainingTable | prepare_data.py:36-49 | every legacy row in the master table is a legacy row that had a value in every final column, with those values unchanged |
| Strings.NatToString | prepare_data.py:25 | `str(i)` of a non-negative int is a non-empty run of digits with no leading zero |
| Strings.ParseNatToString | prepare_data.py:25 | reading the decimal rendering back gives the number |
| Strings.NatToStringInjective | prepare_data.py:25 | distinct indices give distinct feature column names |
| Strings.IntToString | prepare_data.py:36 | `str()` of an int: the plain digits of a non-negative int, and a minus sign followed by the digits of its magnitude for a negative one, so the minus sign appears exactly for negatives |
| Seqs.Filter | fix_data.py:19 | the result is no longer than the input; its elements are input elements that pass the test, and every passing input element is among them |
| Seqs.FilterMultiplicity | fix_data.py:19 | a filter keeps every copy of a passing element and no copy of a failing one |
| Seqs.FilterMap | fix_data.py:16-19 | filtering mapped elements equals mapping the filtered elements, when the two tests agree through the map |
| Seqs.FilterIsSubsequence | prepare_data.py:49 | a filter result is an order-preserving subsequence of its input |
| Seqs.FilterAppend | prepare_data.py:42-49 | filtering a concatenation is concatenating the filtered parts |
| Seqs.FilterKeepsAll | prepare_data.py:49 | filtering a sequence whose every element passes gives the sequence back |
| Seqs.Map | prepare_data.py:36 | mapping keeps the length and applies the function at every position |

Generic proof helpers, used by the lemmas above and not tied to particular
script lines:

- `Seqs.FilterDistinct`: filtering a duplicate-free sequence gives a
  duplicate-free sequence.
- `Seqs.SubsequenceOfTail`: a subsequence of a sequence's tail is a
  subsequence of the whole sequence.
- `PrepareData.FinalColumnsCovered`: the set-level form of
  `FinalColumnsPresent`, stated over the set of merged column names.
- `FixData.KnownIsNotOther`: a row that passes the `isin` filter is not
  labelled `OTHER`, because the spellings differ.

## Left out

- The MFCC analysis itself (librosa loading at 22050 Hz for 3 s, 45 MFCCs, their means) is floating-point signal processing in an external library. It is the opaque `analyse` parameter.
- File I/O is left out: reading and writing CSV files, `os.path.exists`, and `glob`. The parsed tables and the file listing are parameters, with `None` for a missing file or folder.
- The console messages (`print`) are left out. They do not affect the tables.
- `fix_data.py` reads `train.csv` with no existence check. The model starts from the parsed table.
- Other parts of the repository are not part of this model: model training, the web app, the database, the demo signal, the label-report script and the configuration constants. They are outside the two dataset scripts modelled here, although training splits off the `label` column and the web app reshapes one feature vector.
- Strings.Lower: lowers only ASCII letters. This does not change any label. The only non-ASCII characters whose lower case contains ASCII letters are U+0130 (to "i" plus a combining dot) and U+212A (to "k"). No keyword contains "i" or "k".
- FixData.CellText: the decimal display of a numeric filename cell is the `render` parameter. Python's float formatting is not modelled.
- The legacy header may hold integer names as well as text. `read_csv` only ever produces text names, and there `str()` changes nothing (`NormaliseTextHeader`). The integer case is a deliberate generalisation.
- PrepareData.NormaliseColumns: requires that the header has no duplicate names after `str()`. pandas' handling of duplicate column names is not modelled.
- The missing-column list carried by `ColumnsMissing` is not characterised beyond its definition. It stands for pandas' KeyError, which stops the run before anything is written.
- BuildMasterRows: assumes the analyser never returns NaN. A NaN feature is a missing cell to `dropna`, but the model's feature values are reals with no NaN, so no healthy row is ever dropped.
- Column dtypes are not modelled: the int/float/object conversions pandas makes on concat and on reading.

=== FILE: fix_data.dfy ===
/** Labelling of the legacy training table by filename (`fix_data.py`): each
    row's filename is lower-cased and searched for keywords in a fixed
    priority order, and the rows whose label stays `OTHER` are dropped. */
module FixData {
  import opened Wrappers
  import opened Strings
  import opened Seqs
  import opened Frame
  import opened Labels

  const TbKeywords: seq<string> := ["tb", "heavy"]
  const AsthmaKeywords: seq<string> := ["asthma", "wheeze", "shallow"]
  const NormalKeywords: seq<string> := ["healthy", "normal", "v1"]

  /** `k1 in s or k2 in s or ...` over the keywords `kws`. */
  predicate ContainsAny(s: string, kws: seq<string>) {
    exists k :: k in kws && Contains(s, k)
  }

  /** Some keyword of `kws` occurs somewhere in `s`. */
  ghost predicate MentionsAny(s: string, kws: seq<string>) {
    exists k, i :: k in kws && OccursAt(s, k, i)
  }

  lemma ContainsAnyIffMentions(s: string, kws: seq<string>)
    ensures ContainsAny(s, kws) <==> MentionsAny(s, kws)
  {
    forall k | k in kws ensures Contains(s, k) <==> exists i :: OccursAt(s, k, i) {
      ContainsIffOccurs(s, k);
    }
  }

  /** `extract_label(path)` on the text of a path. The keyword groups are
      tried in priority order: a TB keyword wins over every other, an asthma
      keyword over the healthy ones, and a path with none of them is `OTHER`. */
  function ExtractLabel(path: string): (l: Label)
    ensures l == TB <==> MentionsAny(Lower(path), TbKeywords)
    ensures l == ASTHMA <==>
              !MentionsAny(Lower(path), TbKeywords) && MentionsAny(Lower(path), AsthmaKeywords)
    ensures l == NORMAL <==>
              && !MentionsAny(Lower(path), TbKeywords)
              && !MentionsAny(Lower(path), AsthmaKeywords)
              && MentionsAny(Lower(path), NormalKeywords)
    ensures l == OTHER <==>
              && !MentionsAny(Lower(path), TbKeywords)
              && !MentionsAny(Lower(path), AsthmaKeywords)
              && !MentionsAny(Lower(path), NormalKeywords)
  {
    var p := Lower(path);
    ContainsAnyIffMentions(p, TbKeywords);
    ContainsAnyIffMentions(p, AsthmaKeywords);
    ContainsAnyIffMentions(p, NormalKeywords);
    if ContainsAny(p, TbKeywords) then TB
    else if ContainsAny(p, AsthmaKeywords) then ASTHMA
    else if ContainsAny(p, NormalKeywords) then NORMAL
    else OTHER
  }

  /** Paths that differ only in the case of their letters get the same label. */
  lemma ExtractLabelIgnoresCase(p: string, q: string)
    requires EqualIgnoringCase(p, q)
    ensures ExtractLabel(p) == ExtractLabel(q)
  {
    LowerEqualIffIgnoringCase(p, q);
  }

  /** The label depends only on the lower-cased path. */
  lemma ExtractLabelOfLowered(p: string)
    ensures ExtractLabel(Lower(p)) == ExtractLabel(p)
  {
    LowerIdempotent(p);
  }

  /** Keywords are matched as substrings, not words: `tb` inside "football"
      makes a file in the healthy folder a TB sample. */
  lemma KeywordInsideWord()
    ensures ExtractLabel("Healthy/football_v1.wav") == TB
  {
    var path := "Healthy/football_v1.wav";
    var p := Lower(path);
    assert path[11] == 't' && path[12] == 'b';
    assert p[11..13] == "tb";
    assert OccursAt(p, "tb", 11);
    ContainsIffOccurs(p, "tb");
  }

  /** A missing filename reads as `nan`, which mentions no keyword. */
  lemma MissingFilenameIsOther()
    ensures ExtractLabel("nan") == OTHER
  {
    assert Lower("nan") == "nan";
    assert "nan"[1..] == "an" && "an"[1..] == "n";
    assert "nan"[..2] == "na" && "an"[..2] == "an";
    assert !Contains("n", "tb") && !Contains("an", "tb") && !Contains("nan", "tb");
    assert !Contains("n", "v1") && !Contains("an", "v1") && !Contains("nan", "v1");
  }

  const FilenameColumn: string := "filename"

  /** `str(x)` of a filename cell. A missing cell is `NaN`, shown as `nan`;
      the decimal display of a number is supplied as `render`. */
  function CellText(c: Option<Cell>, render: real -> string): string {
    match c
    case None => "nan"
    case Some(Text(s)) => s
    case Some(Num(x)) => render(x)
  }

  /** The label `extract_label` gives a row's filename. */
  function FilenameLabel(r: Row, render: real -> string): Label {
    ExtractLabel(CellText(if FilenameColumn in r then r[FilenameColumn] else None, render))
  }

  /** `o` is `r` with its label cell set from its filename, all else kept. */
  ghost predicate RelabelledFrom(o: Row, r: Row, render: real -> string) {
    && o.Keys == r.Keys + {LabelColumn}
    && (forall c :: c in r && c != LabelColumn ==> o[c] == r[c])
    && o[LabelColumn] == Some(Text(Name(FilenameLabel(r, render))))
  }

  /** One row of `df['label'] = df['filename'].apply(extract_label)`. */
  function Relabel(r: Row, render: real -> string): (o: Row)
    ensures RelabelledFrom(o, r, render)
  {
    r[LabelColumn := Some(Text(Name(FilenameLabel(r, render))))]
  }

  /** `label` is one of `TB`, `ASTHMA`, `NORMAL`. */
  predicate IsKnown(r: Row) {
    && LabelColumn in r
    && (|| r[LabelColumn] == Some(Text(Name(TB)))
        || r[LabelColumn] == Some(Text(Name(ASTHMA)))
        || r[LabelColumn] == Some(Text(Name(NORMAL))))
  }

  /** Relabelling sets the label cell to a known class exactly when the
      filename mentions some keyword. */
  lemma RelabelIsKnown(r: Row, render: real -> string)
    ensures IsKnown(Relabel(r, render)) <==> FilenameLabel(r, render) != OTHER
  {
    var l := FilenameLabel(r, render);
    NameInjective(l, TB);
    NameInjective(l, ASTHMA);
    NameInjective(l, NORMAL);
  }

  /** `df[df['label'].isin(['TB', 'ASTHMA', 'NORMAL'])]`. */
  function KeepKnown(t: Table): (d: Table)
    ensures d.columns == t.columns
    ensures forall i :: 0 <= i < |d.rows| ==> IsKnown(d.rows[i])
    ensures forall i :: 0 <= i < |t.rows| ==> (t.rows[i] in d.rows <==> IsKnown(t.rows[i]))
    ensures forall i :: 0 <= i < |d.rows| ==> d.rows[i] in t.rows
    ensures IsSubsequence(d.rows, t.rows)
    ensures forall r :: multiset(d.rows)[r] == if IsKnown(r) then multiset(t.rows)[r] else 0
    ensures WellFormed(t) ==> WellFormed(d)
  {
    var rows := Filter(IsKnown, t.rows);
    FilterIsSubsequence(IsKnown, t.rows);
    FilterMultiplicity(IsKnown, t.rows);
    Table(t.columns, rows)
  }

  /** `Relabel` with a fixed `render`, as a function on rows. */
  function RelabelOn(render: real -> string): Row -> Row {
    r => Relabel(r, render)
  }

  /** The filename of a row names one of the three known classes. */
  function NamesKnownOn(render: real -> string): Row -> bool {
    r => FilenameLabel(r, render) != OTHER
  }

  /** The table with every row relabelled from its filename. */
  function RelabelAll(t: Table, render: real -> string): (u: Table)
    ensures |u.rows| == |t.rows|
    ensures forall i :: 0 <= i < |t.rows| ==> u.rows[i] == Relabel(t.rows[i], render)
    ensures WellFormed(t) ==> WellFormed(u)
  {
    Table(WithColumn(t.columns, LabelColumn), Map(RelabelOn(render), t.rows))
  }

  /** The whole of `fix_data.py` on the parsed `train.csv`: `None` is the
      KeyError raised when there is no `filename` column. */
  function FixLabels(t: Table, render: real -> string): (r: Option<Table>)
    ensures r.None? <==> FilenameColumn !in t.columns
    ensures r.Some? ==> r.value.columns == WithColumn(t.columns, LabelColumn)
  {
    if FilenameColumn !in t.columns then None
    else Some(KeepKnown(RelabelAll(t, render)))
  }

  /** The fixed table holds exactly the rows whose filename names a known
      class, each relabelled, in their original order and with every copy
      kept. */
  lemma FixLabelsKeepsKnownRows(t: Table, render: real -> string)
    requires WellFormed(t) && FilenameColumn in t.columns
    ensures WellFormed(FixLabels(t, render).value)
    ensures FixLabels(t, render).value.rows == Map(RelabelOn(render), Filter(NamesKnownOn(render), t.rows))
    ensures forall i :: 0 <= i < |t.rows| ==>
              (Relabel(t.rows[i], render) in FixLabels(t, render).value.rows
               <==> FilenameLabel(t.rows[i], render) != OTHER)
    ensures IsSubsequence(FixLabels(t, render).value.rows, RelabelAll(t, render).rows)
  {
    var u := RelabelAll(t, render);
    assert FixLabels(t, render).value == KeepKnown(u);
    assert u.rows == Map(RelabelOn(render), t.rows);
    forall i | 0 <= i < |t.rows|
      ensures IsKnown(u.rows[i]) <==> FilenameLabel(t.rows[i], render) != OTHER
    {
      RelabelIsKnown(t.rows[i], render);
    }
    forall i | 0 <= i < |t.rows|
      ensures IsKnown(RelabelOn(render)(t.rows[i])) == NamesKnownOn(render)(t.rows[i])
    {
      RelabelIsKnown(t.rows[i], render);
    }
    FilterMap(NamesKnownOn(render), IsKnown, RelabelOn(render), t.rows);
  }

  /** Every row of the fixed table is some input row with only its label cell
      changed, and that label is never `OTHER`. */
  lemma FixLabelsChangesOnlyLabel(t: Table, render: real -> string)
    requires FilenameColumn in t.columns
    ensures forall i :: 0 <= i < |FixLabels(t, render).value.rows| ==>
              && FixLabels(t, render).value.rows[i][LabelColumn] != Some(Text(Name(OTHER)))
              && exists j :: 0 <= j < |t.rows| && RelabelledFrom(FixLabels(t, render).value.rows[i], t.rows[j], render)
  {
    var u := RelabelAll(t, render);
    var out := KeepKnown(u);
    assert FixLabels(t, render).value == out;
    forall i | 0 <= i < |out.rows|
      ensures out.rows[i][LabelColumn] != Some(Text(Name(OTHER)))
      ensures exists j :: 0 <= j < |t.rows| && RelabelledFrom(out.rows[i], t.rows[j], render)
    {
      KnownRowIsRelabelled(t, render, i);
    }
  }

  /** A row with a known label is not labelled `OTHER`. */
  lemma KnownIsNotOther(r: Row)
    requires IsKnown(r)
    ensures r[LabelColumn] != Some(Text(Name(OTHER)))
  {
    assert |Name(TB)| != |Name(OTHER)| && |Name(ASTHMA)| != |Name(OTHER)| && |Name(NORMAL)| != |Name(OTHER)|;
  }

  lemma KnownRowIsRelabelled(t: Table, render: real -> string, i: int)
    ensures 0 <= i < |KeepKnown(RelabelAll(t, render)).rows| ==>
              && KeepKnown(RelabelAll(t, render)).rows[i][LabelColumn] != Some(Text(Name(OTHER)))
              && exists j :: 0 <= j < |t.rows| && RelabelledFrom(KeepKnown(RelabelAll(t, render)).rows[i], t.rows[j], render)
  {
    var u := RelabelAll(t, render);
    var kept := KeepKnown(u);
    if 0 <= i < |kept.rows| {
      var o := kept.rows[i];
      KnownIsNotOther(o);
      var j :| 0 <= j < |u.rows| && o == u.rows[j];
      assert o == Relabel(t.rows[j], render);
    }
  }
}

=== FILE: frame.dfy ===
/** The slice of a pandas DataFrame that the dataset scripts use: named
    columns in order, rows whose cells may be missing (`NaN`), and the
    `concat`, column-selection and `dropna` operations. */
module Frame {
  import opened Wrappers
  import opened Seqs

  /** A table cell: a number, or a text value such as a label or a filename. */
  datatype Cell = Num(x: real) | Text(s: string)

  /** One row: column name to cell, `None` where pandas holds `NaN`. */
  type Row = map<string, Option<Cell>>

  datatype Table = Table(columns: seq<string>, rows: seq<Row>)

  function ColumnSet(cols: seq<string>): set<string> {
    set c | c in cols
  }

  /** Column names are unique and every row has exactly the table's columns. */
  ghost predicate WellFormed(t: Table) {
    && Distinct(t.columns)
    && forall i :: 0 <= i < |t.rows| ==> t.rows[i].Keys == ColumnSet(t.columns)
  }

  /** The row laid out on `cols`; a column the row lacks gets a missing cell. */
  function Reindex(r: Row, cols: seq<string>): (o: Row)
    ensures o.Keys == ColumnSet(cols)
    ensures forall c :: c in cols ==> o[c] == (if c in r then r[c] else None)
  {
    map c | c in ColumnSet(cols) :: if c in r then r[c] else None
  }

  /** `Reindex` on fixed columns, as a function on rows. */
  function ReindexOn(cols: seq<string>): Row -> Row {
    r => Reindex(r, cols)
  }

  /** Laying a row out on `wide` and then on a narrower `narrow` is the same as
      laying it out on `narrow` directly. */
  lemma ReindexNarrowing(r: Row, wide: seq<string>, narrow: seq<string>)
    requires ColumnSet(narrow) <= ColumnSet(wide)
    ensures Reindex(Reindex(r, wide), narrow) == Reindex(r, narrow)
  {
  }

  /** A row that already has exactly `cols` is unchanged by laying it out on them. */
  lemma ReindexOwnColumns(r: Row, cols: seq<string>)
    requires r.Keys == ColumnSet(cols)
    ensures Reindex(r, cols) == r
  {
  }

  /** The columns of `b` that `a` lacks, in `b`'s order. */
  function NewColumns(a: seq<string>, b: seq<string>): seq<string> {
    Filter(c => c !in a, b)
  }

  /** `pd.concat([a, b], ignore_index=True)`: the columns of `a` followed by
      those only `b` has; the rows of `a` followed by the rows of `b`, each
      given a missing cell in the columns it did not have. */
  function Concat(a: Table, b: Table): (t: Table)
    ensures ColumnSet(t.columns) == ColumnSet(a.columns) + ColumnSet(b.columns)
    ensures |a.columns| <= |t.columns| && t.columns[..|a.columns|] == a.columns
    ensures IsSubsequence(t.columns[|a.columns|..], b.columns)
    ensures forall i :: |a.columns| <= i < |t.columns| ==> t.columns[i] !in a.columns
    ensures Distinct(a.columns) && Distinct(b.columns) ==> WellFormed(t)
    ensures |t.rows| == |a.rows| + |b.rows|
    ensures forall i, c :: 0 <= i < |a.rows| && c in t.columns ==>
              c in t.rows[i] && t.rows[i][c] == (if c in a.rows[i] then a.rows[i][c] else None)
    ensures forall j, c :: 0 <= j < |b.rows| && c in t.columns ==>
              c in t.rows[|a.rows| + j]
              && t.rows[|a.rows| + j][c] == (if c in b.rows[j] then b.rows[j][c] else None)
  {
    var cols := a.columns + NewColumns(a.columns, b.columns);
    var rows := Map(ReindexOn(cols), a.rows + b.rows);
    assert ColumnSet(cols) == ColumnSet(a.columns) + ColumnSet(b.columns) by {
      forall c | c in b.columns && c !in a.columns ensures c in cols {
        var j :| 0 <= j < |b.columns| && b.columns[j] == c;
        assert NewColumns(a.columns, b.columns) == Filter(c => c !in a.columns, b.columns);
      }
    }
    ConcatColumnsDistinct(a.columns, b.columns);
    FilterIsSubsequence(c => c !in a.columns, b.columns);
    assert cols[..|a.columns|] == a.columns;
    assert cols[|a.columns|..] == NewColumns(a.columns, b.columns);
    Table(cols, rows)
  }

  /** Appending the columns `a` lacks keeps the column names unique. */
  lemma ConcatColumnsDistinct(a: seq<string>, b: seq<string>)
    ensures Distinct(a) && Distinct(b) ==> Distinct(a + NewColumns(a, b))
  {
    if !(Distinct(a) && Distinct(b)) { return; }
    var n := NewColumns(a, b);
    FilterDistinct(c => c !in a, b);
    forall i, j | 0 <= i < j < |a + n| ensures (a + n)[i] != (a + n)[j] {
      if j >= |a| && i < |a| {
        assert (a + n)[j] == n[j - |a|];
        assert n[j - |a|] !in a;
      }
    }
  }

  /** `t[cols]`: the table restricted to `cols`, in that order; `None` is the
      KeyError pandas raises when one of `cols` is not a column of `t`. */
  function Project(t: Table, cols: seq<string>): (r: Option<Table>)
    ensures r.Some? <==> forall c :: c in cols ==> c in t.columns
    ensures r.Some? ==> r.value.columns == cols && |r.value.rows| == |t.rows|
    ensures r.Some? ==> forall i :: 0 <= i < |r.value.rows| ==> r.value.rows[i].Keys == ColumnSet(cols)
    ensures r.Some? && WellFormed(t) ==>
              forall i, c :: 0 <= i < |t.rows| && c in cols ==>
                c in t.rows[i] && c in r.value.rows[i] && r.value.rows[i][c] == t.rows[i][c]
  {
    if forall c :: c in cols ==> c in t.columns then
      Some(Table(cols, Map(ReindexOn(cols), t.rows)))
    else
      None
  }

  /** Selecting columns after a concatenation lays the rows of each part out
      on the selected columns, the rows of `a` first. */
  lemma ConcatThenProject(a: Table, b: Table, cols: seq<string>)
    requires forall c :: c in cols ==> c in Concat(a, b).columns
    ensures Project(Concat(a, b), cols).Some?
    ensures Project(Concat(a, b), cols).value.rows == Map(ReindexOn(cols), a.rows) + Map(ReindexOn(cols), b.rows)
  {
    var t := Concat(a, b);
    var p := Project(t, cols).value;
    var expected := Map(ReindexOn(cols), a.rows) + Map(ReindexOn(cols), b.rows);
    assert ColumnSet(cols) <= ColumnSet(t.columns);
    forall i | 0 <= i < |p.rows| ensures p.rows[i] == expected[i] {
      if i < |a.rows| {
        ReindexNarrowing(a.rows[i], t.columns, cols);
      } else {
        ReindexNarrowing(b.rows[i - |a.rows|], t.columns, cols);
      }
    }
  }

  /** The column list after `df[c] = ...`: `c` is appended unless the table
      already has it. */
  function WithColumn(cols: seq<string>, c: string): (r: seq<string>)
    ensures ColumnSet(r) == ColumnSet(cols) + {c}
    ensures |r| == |cols| + (if c in cols then 0 else 1)
    ensures r[..|cols|] == cols
    ensures Distinct(cols) ==> Distinct(r)
  {
    if c in cols then cols
    else
      assert forall i :: 0 <= i < |cols| ==> (cols + [c])[i] == cols[i];
      cols + [c]
  }

  /** Every one of `cols` holds a value in `r`. */
  predicate Complete(r: Row, cols: seq<string>) {
    forall c :: c in cols ==> c in r && r[c].Some?
  }

  /** `Complete` on fixed columns, as a function on rows. */
  function CompleteOn(cols: seq<string>): Row -> bool {
    r => Complete(r, cols)
  }

  /** `t.dropna()`: the rows without a missing cell, in their original order,
      each as often as in `t`. */
  function DropMissing(t: Table): (d: Table)
    ensures d.columns == t.columns
    ensures forall r :: r in d.rows ==> Complete(r, t.columns)
    ensures forall r :: r in t.rows ==> (r in d.rows <==> Complete(r, t.columns))
    ensures IsSubsequence(d.rows, t.rows)
    ensures forall r :: multiset(d.rows)[r] == if Complete(r, t.columns) then multiset(t.rows)[r] else 0
    ensures |d.rows| <= |t.rows|
    ensures WellFormed(t) ==> WellFormed(d)
  {
    var keep := CompleteOn(t.columns);
    FilterIsSubsequence(keep, t.rows);
    FilterMultiplicity(keep, t.rows);
    Table(t.columns, Filter(keep, t.rows))
  }
}

=== FILE: labels.dfy ===
/** The diagnostic classes a training row can carry, and how they are spelled
    in the `label` column. */
module Labels {

  datatype Label = TB | ASTHMA | NORMAL | OTHER

  /** The name of the column that holds a row's class. */
  const LabelColumn: string := "label"

  /** The text a label is stored as. */
  function Name(l: Label): string {
    match l
    case TB => "TB"
    case ASTHMA => "ASTHMA"
    case NORMAL => "NORMAL"
    case OTHER => "OTHER"
  }

  /** Distinct labels are stored as distinct texts. */
  lemma NameInjective(a: Label, b: Label)
    ensures Name(a) == Name(b) ==> a == b
  {
  }
}

=== FILE: prepare_data.dfy ===
/** Assembly of the master training table (`prepare_data.py`): rows built
    from the healthy recordings, the legacy `train.csv` with its column names
    made strings and a default label, both merged, cut down to the 45 feature
    columns and `label`, and cleared of incomplete rows. */
module PrepareData {
  import opened Wrappers
  import opened Strings
  import opened Seqs
  import opened Frame
  import opened Labels

  /** MFCC coefficients per recording (`N_MFCC`). */
  const FeatureCount: nat := 45

  /** A feature vector as the extractor returns it: exactly 45 numbers. */
  type Features = v: seq<real> | |v| == FeatureCount witness seq(FeatureCount, i => 0.0)

  /** The feature column names `str(0)` ... `str(44)`. */
  function FeatureColumns(): seq<string> {
    seq(FeatureCount, i requires 0 <= i => NatToString(i))
  }

  /** `final_cols`: the feature columns, then `label`. */
  function FinalColumns(): seq<string> {
    FeatureColumns() + [LabelColumn]
  }

  /** The output columns are `"0"`, ..., `"44"`, `label`, in that order and
      each once. */
  lemma FinalColumnsShape()
    ensures |FinalColumns()| == FeatureCount + 1
    ensures forall i :: 0 <= i < FeatureCount ==> FinalColumns()[i] == NatToString(i)
    ensures FinalColumns()[FeatureCount] == LabelColumn
    ensures Distinct(FinalColumns())
  {
    NatToStringInjective();
    forall i, j | 0 <= i < j < |FinalColumns()| ensures FinalColumns()[i] != FinalColumns()[j] {
      if j == FeatureCount {
        assert FinalColumns()[i][0] != 'l';
      } else {
        assert FinalColumns()[i] == NatToString(i) && FinalColumns()[j] == NatToString(j);
      }
    }
  }

  /** Loading and analysing one audio file: its 45 mean MFCCs, or the message
      of the exception raised on the way. */
  type Analyser = string -> Result<Features, string>

  /** `extract_45_features(path)`: an exception is caught and becomes `None`. */
  function ExtractFeatures(analyse: Analyser, path: string): (r: Option<Features>)
    ensures r.None? <==> analyse(path).Failure?
    ensures r.Some? ==> r.value == analyse(path).value
  {
    match analyse(path)
    case Success(v) => Some(v)
    case Failure(_) => None
  }

  /** A row built from a healthy recording: every final column holds a value
      and the label is `NORMAL`. */
  ghost predicate IsHealthyRow(r: Row) {
    && r.Keys == ColumnSet(FinalColumns())
    && Complete(r, FinalColumns())
    && r[LabelColumn] == Some(Text(Name(NORMAL)))
  }

  /** `c` is `str(i)` for one of the feature indices. */
  ghost predicate IsFeatureName(c: string) {
    exists i :: 0 <= i < FeatureCount && c == NatToString(i)
  }

  /** The final columns are the decimal names of 0 ... 44 and `label`, and
      `label` is none of the decimal names. */
  lemma FinalColumnMembers()
    ensures LabelColumn in ColumnSet(FinalColumns())
    ensures forall i :: 0 <= i < FeatureCount ==> NatToString(i) in ColumnSet(FinalColumns())
    ensures forall c :: c in ColumnSet(FinalColumns()) ==> c == LabelColumn || IsFeatureName(c)
    ensures forall i :: 0 <= i < FeatureCount ==> LabelColumn != NatToString(i)
  {
    FinalColumnsShape();
    assert FinalColumns()[FeatureCount] == LabelColumn;
    forall i | 0 <= i < FeatureCount
      ensures NatToString(i) in ColumnSet(FinalColumns())
      ensures LabelColumn != NatToString(i)
    {
      assert FinalColumns()[i] == NatToString(i);
      assert IsDigit(NatToString(i)[0]);
    }
    forall c | c in ColumnSet(FinalColumns())
      ensures c == LabelColumn || IsFeatureName(c)
    {
      var i :| 0 <= i < |FinalColumns()| && FinalColumns()[i] == c;
      if i < FeatureCount {
        assert c == NatToString(i);
        assert 0 <= i < FeatureCount && c == NatToString(i);
      } else {
        assert i == FeatureCount;
        assert c == LabelColumn;
      }
    }
  }

  /** `{str(i): features[i] for i in range(45)}`. */
  function FeatureCells(f: Features): (m: Row)
    ensures forall c :: c in m <==> IsFeatureName(c)
    ensures forall i :: 0 <= i < FeatureCount ==> NatToString(i) in m && m[NatToString(i)] == Some(Num(f[i]))
  {
    NatToStringInjective();
    map i | 0 <= i < FeatureCount :: NatToString(i) := Some(Num(f[i]))
  }

  /** `row = {str(i): features[i] for i in range(45)}; row['label'] = 'NORMAL'`. */
  function HealthyRow(f: Features): (r: Row)
    ensures r.Keys == ColumnSet(FinalColumns())
    ensures forall i :: 0 <= i < FeatureCount ==> NatToString(i) in r && r[NatToString(i)] == Some(Num(f[i]))
    ensures LabelColumn in r && r[LabelColumn] == Some(Text(Name(NORMAL)))
    ensures IsHealthyRow(r)
  {
    FinalColumnMembers();
    var r := FeatureCells(f)[LabelColumn := Some(Text(Name(NORMAL)))];
    assert r.Keys == ColumnSet(FinalColumns()) by {
      assert forall c :: c in r <==> c == LabelColumn || IsFeatureName(c);
    }
    r
  }

  /** `new_rows` for the listed files, in file order: one row per file whose
      extraction succeeded. */
  function RowsFor(files: seq<string>, analyse: Analyser): (rows: seq<Row>)
    ensures |rows| <= |files|
    ensures forall i :: 0 <= i < |rows| ==> IsHealthyRow(rows[i])
    decreases |files|
  {
    if |files| == 0 then []
    else
      var earlier := RowsFor(files[..|files| - 1], analyse);
      match ExtractFeatures(analyse, files[|files| - 1])
      case None => earlier
      case Some(f) => earlier + [HealthyRow(f)]
  }

  /** The loop over the `.wav` files of `Healthy` that fills `new_rows`. */
  method CollectHealthyRows(files: seq<string>, analyse: Analyser) returns (rows: seq<Row>)
    ensures rows == RowsFor(files, analyse)
  {
    rows := [];
    var i := 0;
    while i < |files|
      invariant 0 <= i <= |files|
      invariant rows == RowsFor(files[..i], analyse)
    {
      var features := ExtractFeatures(analyse, files[i]);
      if features.Some? {
        rows := rows + [HealthyRow(features.value)];
      }
      assert files[..i + 1] == files[..i] + [files[i]];
      RowsForSnoc(files[..i], files[i], analyse);
      i := i + 1;
    }
    assert files[..|files|] == files;
  }

  /** One more file adds its row when its extraction succeeds, and nothing
      when it fails. */
  lemma RowsForSnoc(files: seq<string>, f: string, analyse: Analyser)
    ensures RowsFor(files + [f], analyse) ==
            match ExtractFeatures(analyse, f)
            case None => RowsFor(files, analyse)
            case Some(v) => RowsFor(files, analyse) + [HealthyRow(v)]
  {
    assert (files + [f])[..|files|] == files;
  }

  /** Files are processed in order: the rows of a longer listing extend those
      of its prefix. */
  lemma {:induction false} RowsForAppend(a: seq<string>, b: seq<string>, analyse: Analyser)
    ensures RowsFor(a + b, analyse) == RowsFor(a, analyse) + RowsFor(b, analyse)
    decreases |b|
  {
    if |b| == 0 {
      assert a + b == a;
    } else {
      var ab := a + b;
      assert ab[..|ab| - 1] == a + b[..|b| - 1];
      assert ab[|ab| - 1] == b[|b| - 1];
      RowsForAppend(a, b[..|b| - 1], analyse);
    }
  }

  /** A file whose extraction fails contributes no row and each other file
      exactly one: there are as many rows as successful extractions. */
  lemma {:induction false} RowsForCount(files: seq<string>, analyse: Analyser)
    ensures |RowsFor(files, analyse)| == |Filter(f => analyse(f).Success?, files)|
    decreases |files|
  {
    if |files| > 0 {
      var init := files[..|files| - 1];
      var last := files[|files| - 1];
      assert files == init + [last];
      RowsForCount(init, analyse);
      FilterAppend(f => analyse(f).Success?, init, [last]);
    }
  }

  /** When every file can be analysed, row `k` holds the features of file `k`. */
  lemma {:induction false} RowsForAllSucceed(files: seq<string>, analyse: Analyser)
    requires forall k :: 0 <= k < |files| ==> analyse(files[k]).Success?
    ensures |RowsFor(files, analyse)| == |files|
    ensures forall k :: 0 <= k < |files| ==>
              RowsFor(files, analyse)[k] == HealthyRow(analyse(files[k]).value)
    decreases |files|
  {
    if |files| > 0 {
      var init := files[..|files| - 1];
      var last := files[|files| - 1];
      assert files == init + [last];
      RowsForAllSucceed(init, analyse);
      RowsForSnoc(init, last, analyse);
      var rows := RowsFor(files, analyse);
      forall k | 0 <= k < |init| ensures rows[k] == HealthyRow(analyse(files[k]).value) {
        assert init[k] == files[k];
      }
    }
  }

  /** `new_rows`: `healthy` is the `.wav` listing of the `Healthy` folder, or
      `None` when there is no such folder. */
  function NewRows(healthy: Option<seq<string>>, analyse: Analyser): (rows: seq<Row>)
    ensures healthy.None? ==> rows == []
    ensures forall i :: 0 <= i < |rows| ==> IsHealthyRow(rows[i])
  {
    match healthy
    case None => []
    case Some(files) => RowsFor(files, analyse)
  }

  /** `pd.DataFrame(new_rows)`: no columns at all when there are no rows. */
  function NewTable(rows: seq<Row>): (t: Table)
    requires forall i :: 0 <= i < |rows| ==> IsHealthyRow(rows[i])
    ensures WellFormed(t) && t.rows == rows
    ensures |rows| > 0 ==> t.columns == FinalColumns()
    ensures |rows| == 0 ==> t.columns == []
  {
    FinalColumnsShape();
    assert forall i :: 0 <= i < |rows| ==> rows[i].Keys == ColumnSet(FinalColumns()) by {
      forall i | 0 <= i < |rows| ensures rows[i].Keys == ColumnSet(FinalColumns()) {
        assert IsHealthyRow(rows[i]);
      }
    }
    if |rows| == 0 then Table([], rows) else Table(FinalColumns(), rows)
  }

  /** A column name of the legacy table. `read_csv` with its default header
      gives only text names, for which `str()` changes nothing; integer names
      are a deliberate generalisation, covering a frame whose header was built
      from numbers. */
  datatype Key = TextKey(s: string) | IntKey(n: int)

  /** `str(col)`. */
  function KeyText(k: Key): string {
    match k
    case TextKey(s) => s
    case IntKey(n) => IntToString(n)
  }

  /** The parsed legacy `train.csv`: header and rows keyed by it. */
  datatype LegacyTable = LegacyTable(header: seq<Key>, rows: seq<map<Key, Option<Cell>>>)

  /** Every row has the header's columns, and the header stays free of
      duplicates once its names are made strings. */
  ghost predicate LegacyWellFormed(t: LegacyTable) {
    && (forall i, j :: 0 <= i < j < |t.header| ==> KeyText(t.header[i]) != KeyText(t.header[j]))
    && (forall i :: 0 <= i < |t.rows| ==> t.rows[i].Keys == (set k | k in t.header))
  }

  /** Distinct keys of one legacy row have distinct string names. */
  lemma LegacyKeysInjective(t: LegacyTable, i: int)
    requires LegacyWellFormed(t) && 0 <= i < |t.rows|
    ensures forall a, b :: a in t.rows[i] && b in t.rows[i] && KeyText(a) == KeyText(b) ==> a == b
  {
    forall a, b | a in t.rows[i] && b in t.rows[i] && KeyText(a) == KeyText(b) ensures a == b {
      var p :| 0 <= p < |t.header| && t.header[p] == a;
      var q :| 0 <= q < |t.header| && t.header[q] == b;
      assert !(p < q) && !(q < p);
    }
  }

  /** Distinct keys of `r` have distinct string names. */
  ghost predicate KeysInjective(r: map<Key, Option<Cell>>) {
    forall a, b :: a in r && b in r && KeyText(a) == KeyText(b) ==> a == b
  }

  /** One row with its keys made strings. */
  function RenameRow(r: map<Key, Option<Cell>>): (o: Row)
    requires KeysInjective(r)
    ensures o.Keys == set k | k in r :: KeyText(k)
    ensures forall k :: k in r ==> o[KeyText(k)] == r[k]
  {
    map k | k in r :: KeyText(k) := r[k]
  }

  /** Every legacy row renames without collisions, onto the renamed header. */
  lemma RenamedRowKeys(t: LegacyTable)
    requires LegacyWellFormed(t)
    ensures forall i :: 0 <= i < |t.rows| ==> KeysInjective(t.rows[i])
    ensures forall i :: 0 <= i < |t.rows| ==>
              (set k | k in t.rows[i] :: KeyText(k)) == ColumnSet(Map(KeyText, t.header))
  {
    var names := Map(KeyText, t.header);
    forall i | 0 <= i < |t.rows|
      ensures KeysInjective(t.rows[i])
      ensures (set k | k in t.rows[i] :: KeyText(k)) == ColumnSet(names)
    {
      LegacyKeysInjective(t, i);
      forall c | c in ColumnSet(names) ensures c in (set k | k in t.rows[i] :: KeyText(k)) {
        var p :| 0 <= p < |names| && names[p] == c;
        assert t.header[p] in t.rows[i];
      }
    }
  }

  /** `df_old.columns = [str(col) for col in df_old.columns]`: every column
      name becomes a string and every cell stays where it was. */
  function NormaliseColumns(t: LegacyTable): (n: Table)
    requires LegacyWellFormed(t)
    ensures WellFormed(n)
    ensures |n.columns| == |t.header|
    ensures forall i :: 0 <= i < |t.header| ==> n.columns[i] == KeyText(t.header[i])
    ensures |n.rows| == |t.rows|
    ensures forall i, k :: 0 <= i < |t.rows| && k in t.rows[i] ==>
              KeyText(k) in n.rows[i] && n.rows[i][KeyText(k)] == t.rows[i][k]
  {
    RenamedRowKeys(t);
    Table(Map(KeyText, t.header),
          seq(|t.rows|, i requires 0 <= i < |t.rows| && KeysInjective(t.rows[i]) => RenameRow(t.rows[i])))
  }

  /** On a header read from a CSV file, where every name is text, making
      names strings keeps each name as it was. */
  lemma NormaliseTextHeader(t: LegacyTable)
    requires LegacyWellFormed(t)
    requires forall i :: 0 <= i < |t.header| ==> t.header[i].TextKey?
    ensures forall i :: 0 <= i < |t.header| ==> NormaliseColumns(t).columns[i] == t.header[i].s
  {
  }

  /** `if 'label' not in df_old.columns: df_old['label'] = 'TB'`. */
  function DefaultLabel(t: Table): (d: Table)
    ensures LabelColumn in d.columns
    ensures LabelColumn in t.columns ==> d == t
    ensures LabelColumn !in t.columns ==>
              && d.columns == t.columns + [LabelColumn]
              && |d.rows| == |t.rows|
              && forall i :: 0 <= i < |t.rows| ==>
                   && LabelColumn in d.rows[i] && d.rows[i][LabelColumn] == Some(Text(Name(TB)))
                   && forall c :: c in t.rows[i] && c != LabelColumn ==> c in d.rows[i] && d.rows[i][c] == t.rows[i][c]
    ensures WellFormed(t) ==> WellFormed(d)
  {
    if LabelColumn in t.columns then t
    else
      Table(WithColumn(t.columns, LabelColumn), Map(r => r[LabelColumn := Some(Text(Name(TB)))], t.rows))
  }

  /** The legacy rows as they enter the merge. */
  function LegacyPart(l: LegacyTable): (t: Table)
    requires LegacyWellFormed(l)
    ensures WellFormed(t) && LabelColumn in t.columns && |t.rows| == |l.rows|
  {
    DefaultLabel(NormaliseColumns(l))
  }

  /** What a run of the script leaves behind. */
  datatype Outcome =
    | NoTrainingTable                        // `train.csv` absent: nothing written
    | ColumnsMissing(missing: seq<string>)   // KeyError at `df_master[final_cols]`: nothing written
    | Master(dataset: Table)                 // the contents of `master_dataset.csv`

  /** The whole of `prepare_data.py`. `legacy` is the parsed `train.csv`, or
      `None` when the file does not exist; `healthy` lists the `.wav` files of
      the `Healthy` folder, or is `None` when there is no such folder. */
  function Build(legacy: Option<LegacyTable>, healthy: Option<seq<string>>, analyse: Analyser): (r: Outcome)
    requires legacy.Some? ==> LegacyWellFormed(legacy.value)
    ensures legacy.None? <==> r.NoTrainingTable?
  {
    var incoming := NewTable(NewRows(healthy, analyse));
    match legacy
    case None => NoTrainingTable
    case Some(l) =>
      var merged := Concat(LegacyPart(l), incoming);
      match Project(merged, FinalColumns())
      case None => ColumnsMissing(Filter(c => c !in merged.columns, FinalColumns()))
      case Some(p) => Master(DropMissing(p))
  }

  /** The columns of the merged table: those of the legacy part, plus the
      final columns when there is at least one healthy row. */
  lemma MergedColumns(l: LegacyTable, rows: seq<Row>)
    requires LegacyWellFormed(l)
    requires forall i :: 0 <= i < |rows| ==> IsHealthyRow(rows[i])
    ensures forall c :: c in Concat(LegacyPart(l), NewTable(rows)).columns <==>
              c in LegacyPart(l).columns || (|rows| > 0 && c in FinalColumns())
  {
    var merged := Concat(LegacyPart(l), NewTable(rows));
    assert forall c :: c in merged.columns <==> c in ColumnSet(merged.columns);
  }

  /** The column reasoning behind `FinalColumnsPresent`, on plain sets: the
      merged columns are the legacy ones, plus the final ones when there is a
      healthy row, and the legacy ones are `label` plus the normalised ones. */
  lemma FinalColumnsCovered(merged: set<string>, legacy: set<string>, normalised: set<string>, anyHealthy: bool)
    requires forall c :: c in merged <==> c in legacy || (anyHealthy && c in ColumnSet(FinalColumns()))
    requires forall c :: c in legacy <==> c == LabelColumn || c in normalised
    ensures ColumnSet(FinalColumns()) <= merged <==>
              (anyHealthy || forall i :: 0 <= i < FeatureCount ==> NatToString(i) in normalised)
  {
    FinalColumnMembers();
    if !anyHealthy {
      if forall i :: 0 <= i < FeatureCount ==> NatToString(i) in normalised {
        forall c | c in ColumnSet(FinalColumns()) ensures c in merged {
          assert c == LabelColumn || IsFeatureName(c);
        }
      } else {
        var i :| 0 <= i < FeatureCount && NatToString(i) !in normalised;
        assert NatToString(i) in ColumnSet(FinalColumns());
      }
    }
  }

  /** All final columns are present after the merge exactly when there is a
      healthy row or the legacy table has every feature column. */
  lemma FinalColumnsPresent(l: LegacyTable, rows: seq<Row>)
    requires LegacyWellFormed(l)
    requires forall i :: 0 <= i < |rows| ==> IsHealthyRow(rows[i])
    ensures (forall c :: c in FinalColumns() ==> c in Concat(LegacyPart(l), NewTable(rows)).columns) <==>
              (|rows| > 0 || forall i :: 0 <= i < FeatureCount ==> NatToString(i) in NormaliseColumns(l).columns)
  {
    var mergedColumns := Concat(LegacyPart(l), NewTable(rows)).columns;
    var legacyColumns := LegacyPart(l).columns;
    var n := NormaliseColumns(l).columns;
    MergedColumns(l, rows);
    assert forall c :: c in legacyColumns <==> c == LabelColumn || c in n;
    FinalColumnsCovered(ColumnSet(mergedColumns), ColumnSet(legacyColumns), ColumnSet(n), |rows| > 0);
    var F := FinalColumns();
    assert forall c :: c in ColumnSet(F) <==> c in F;
    assert forall c :: c in ColumnSet(mergedColumns) <==> c in mergedColumns;
    assert (forall i :: 0 <= i < FeatureCount ==> NatToString(i) in n) <==>
           (forall i :: 0 <= i < FeatureCount ==> NatToString(i) in ColumnSet(n));
  }

  /** The run stops at the column selection exactly when there is no healthy
      row and the legacy table lacks one of the feature columns; `label` can
      never be the missing one, since a legacy table without it gets one. */
  lemma BuildFailsOnlyOnMissingFeatures(l: LegacyTable, healthy: Option<seq<string>>, analyse: Analyser)
    requires LegacyWellFormed(l)
    ensures Build(Some(l), healthy, analyse).ColumnsMissing? <==>
              && |NewRows(healthy, analyse)| == 0
              && exists i :: 0 <= i < FeatureCount && NatToString(i) !in NormaliseColumns(l).columns
  {
    FinalColumnsPresent(l, NewRows(healthy, analyse));
  }

  /** The healthy rows already have exactly the final columns. */
  lemma HealthyRowsUnchangedByProjection(rows: seq<Row>)
    requires forall i :: 0 <= i < |rows| ==> IsHealthyRow(rows[i])
    ensures Map(ReindexOn(FinalColumns()), rows) == rows
  {
    forall i | 0 <= i < |rows| ensures Reindex(rows[i], FinalColumns()) == rows[i] {
      ReindexOwnColumns(rows[i], FinalColumns());
    }
  }

  /** The master table lists the complete legacy rows first, in their order,
      each cut down to the final columns, and then every healthy row, in file
      order: no healthy row is ever dropped. */
  lemma BuildMasterRows(l: LegacyTable, healthy: Option<seq<string>>, analyse: Analyser)
    requires LegacyWellFormed(l)
    ensures Build(Some(l), healthy, analyse).Master? ==>
              Build(Some(l), healthy, analyse).dataset.rows ==
              Filter(CompleteOn(FinalColumns()), Map(ReindexOn(FinalColumns()), LegacyPart(l).rows))
              + NewRows(healthy, analyse)
  {
    var F := FinalColumns();
    var rows := NewRows(healthy, analyse);
    var merged := Concat(LegacyPart(l), NewTable(rows));
    if Project(merged, F).Some? {
      var a := Map(ReindexOn(F), LegacyPart(l).rows);
      ConcatThenProject(LegacyPart(l), NewTable(rows), F);
      HealthyRowsUnchangedByProjection(rows);
      var p := Project(merged, F).value;
      assert p.rows == a + rows;
      assert Build(Some(l), healthy, analyse).dataset.rows == Filter(CompleteOn(F), p.rows);
      FilterAppend(CompleteOn(F), a, rows);
      FilterKeepsAll(CompleteOn(F), rows);
    }
  }

  /** The master table has exactly the columns `"0"`, ..., `"44"`, `label`;
      no row misses a value in any of them; and it has at most as many rows as
      the legacy table and the healthy rows together. */
  lemma BuildMasterShape(l: LegacyTable, healthy: Option<seq<string>>, analyse: Analyser)
    requires LegacyWellFormed(l)
    ensures Build(Some(l), healthy, analyse).Master? ==>
              && Build(Some(l), healthy, analyse).dataset.columns == FinalColumns()
              && WellFormed(Build(Some(l), healthy, analyse).dataset)
              && (forall i :: 0 <= i < |Build(Some(l), healthy, analyse).dataset.rows| ==>
                    Complete(Build(Some(l), healthy, analyse).dataset.rows[i], FinalColumns()))
              && |Build(Some(l), healthy, analyse).dataset.rows| <= |l.rows| + |NewRows(healthy, analyse)|
  {
    var merged := Concat(LegacyPart(l), NewTable(NewRows(healthy, analyse)));
    if Project(merged, FinalColumns()).Some? {
      FinalColumnsShape();
      var p := Project(merged, FinalColumns()).value;
      assert WellFormed(p);
      var d := Build(Some(l), healthy, analyse).dataset;
      assert d == DropMissing(p);
      forall i | 0 <= i < |d.rows| ensures Complete(d.rows[i], FinalColumns()) {
        assert d.rows[i] in d.rows;
      }
    }
  }

  /** A row that survives laying out on `cols` and dropping incomplete rows
      comes from some row of `s` that had a value in each of `cols`, and
      agrees with it there. */
  lemma KeptRowMatches(s: seq<Row>, cols: seq<string>, i: int)
    requires 0 <= i < |Filter(CompleteOn(cols), Map(ReindexOn(cols), s))|
    ensures exists j :: 0 <= j < |s| && RowMatchesOn(Filter(CompleteOn(cols), Map(ReindexOn(cols), s))[i], s[j], cols)
  {
    var a := Map(ReindexOn(cols), s);
    var o := Filter(CompleteOn(cols), a)[i];
    assert o in a && Complete(o, cols);
    var j :| 0 <= j < |a| && a[j] == o;
    assert RowMatchesOn(o, s[j], cols);
  }

  /** In rows made of the kept rows of `s` followed by `extra`, every row
      before `extra` matches some row of `s` on `cols`. */
  lemma KeptRowsMatch(s: seq<Row>, extra: seq<Row>, cols: seq<string>, out: seq<Row>)
    requires out == Filter(CompleteOn(cols), Map(ReindexOn(cols), s)) + extra
    ensures forall i :: 0 <= i < |out| - |extra| ==> exists j :: 0 <= j < |s| && RowMatchesOn(out[i], s[j], cols)
  {
    forall i | 0 <= i < |out| - |extra| ensures exists j :: 0 <= j < |s| && RowMatchesOn(out[i], s[j], cols) {
      KeptRowMatches(s, cols, i);
    }
  }

  /** When the legacy table had no `label` column, every legacy row that
      reaches the master table is labelled `TB`. */
  lemma BuildLabelsLegacyRowsTB(l: LegacyTable, healthy: Option<seq<string>>, analyse: Analyser)
    requires LegacyWellFormed(l)
    requires LabelColumn !in NormaliseColumns(l).columns
    ensures Build(Some(l), healthy, analyse).Master? ==>
              forall i :: 0 <= i < |Build(Some(l), healthy, analyse).dataset.rows| - |NewRows(healthy, analyse)| ==>
                Build(Some(l), healthy, analyse).dataset.rows[i][LabelColumn] == Some(Text(Name(TB)))
  {
    if Build(Some(l), healthy, analyse).Master? {
      var F := FinalColumns();
      FinalColumnMembers();
      var ds := Build(Some(l), healthy, analyse).dataset.rows;
      var legacy := LegacyPart(l).rows;
      var rows := NewRows(healthy, analyse);
      BuildMasterRows(l, healthy, analyse);
      KeptRowsMatch(legacy, rows, F, ds);
      forall i | 0 <= i < |ds| - |rows| ensures ds[i][LabelColumn] == Some(Text(Name(TB))) {
        var j :| 0 <= j < |legacy| && RowMatchesOn(ds[i], legacy[j], F);
        assert legacy[j][LabelColumn] == Some(Text(Name(TB)));
      }
    }
  }

  /** Every legacy row that reaches the master table is a row of the legacy
      table that had a value in each of the final columns, unchanged in them. */
  lemma BuildLegacyRowsFromTrainingTable(l: LegacyTable, healthy: Option<seq<string>>, analyse: Analyser)
    requires LegacyWellFormed(l)
    ensures Build(Some(l), healthy, analyse).Master? ==>
              forall i :: 0 <= i < |Build(Some(l), healthy, analyse).dataset.rows| - |NewRows(healthy, analyse)| ==>
                exists j :: 0 <= j < |l.rows| &&
                  RowMatchesOn(Build(Some(l), healthy, analyse).dataset.rows[i], LegacyPart(l).rows[j], FinalColumns())
  {
    if Build(Some(l), healthy, analyse).Master? {
      BuildMasterRows(l, healthy, analyse);
      KeptRowsMatch(LegacyPart(l).rows, NewRows(healthy, analyse), FinalColumns(), Build(Some(l), healthy, analyse).dataset.rows);
    }
  }

  /** `o` has exactly the columns `cols`, each holding a value that `r` has
      in the same column. */
  ghost predicate RowMatchesOn(o: Row, r: Row, cols: seq<string>) {
    && o.Keys == ColumnSet(cols)
    && forall c :: c in cols ==> c in r && r[c].Some? && o[c] == r[c]
  }
}

=== FILE: seqs.dfy ===
/** Order-preserving sequence operations: element-wise mapping (a pandas
    column `apply`) and filtering (a boolean row mask). */
module Seqs {

  /** No element occurs twice. */
  ghost predicate Distinct<T>(s: seq<T>) {
    forall i, j :: 0 <= i < j < |s| ==> s[i] != s[j]
  }

  /** `f` applied to every element, in order. */
  function Map<T, U>(f: T -> U, s: seq<T>): (r: seq<U>)
    ensures |r| == |s|
    ensures forall i :: 0 <= i < |s| ==> r[i] == f(s[i])
  {
    seq(|s|, i requires 0 <= i < |s| => f(s[i]))
  }

  /** The elements of `s` that satisfy `p`, in their original order. */
  function Filter<T>(p: T -> bool, s: seq<T>): (r: seq<T>)
    ensures |r| <= |s|
    ensures forall i :: 0 <= i < |r| ==> r[i] in s && p(r[i])
    ensures forall i :: 0 <= i < |s| && p(s[i]) ==> s[i] in r
    decreases |s|
  {
    if |s| == 0 then []
    else
      assert s == [s[0]] + s[1..];
      (if p(s[0]) then [s[0]] else []) + Filter(p, s[1..])
  }

  /** Filtering keeps every copy of a passing element and no copy of any
      other: the result is the sub-multiset of the passing elements. */
  lemma {:induction false} FilterMultiplicity<T>(p: T -> bool, s: seq<T>)
    ensures forall x :: multiset(Filter(p, s))[x] == if p(x) then multiset(s)[x] else 0
    decreases |s|
  {
    if |s| > 0 {
      assert s == [s[0]] + s[1..];
      assert multiset(s) == multiset([s[0]]) + multiset(s[1..]);
      FilterMultiplicity(p, s[1..]);
    }
  }

  /** Filtering after mapping is mapping after filtering, when the test on
      the mapped element agrees with a test on the original one. */
  lemma {:induction false} FilterMap<T, U>(p: T -> bool, q: U -> bool, f: T -> U, s: seq<T>)
    requires forall i :: 0 <= i < |s| ==> q(f(s[i])) == p(s[i])
    ensures Filter(q, Map(f, s)) == Map(f, Filter(p, s))
    decreases |s|
  {
    if |s| > 0 {
      var m := Map(f, s);
      assert m[1..] == Map(f, s[1..]);
      assert m[0] == f(s[0]);
      FilterMap(p, q, f, s[1..]);
      if p(s[0]) {
        assert Map(f, Filter(p, s)) == [f(s[0])] + Map(f, Filter(p, s[1..]));
      }
    }
  }

  /** `r` is `s` with some elements deleted and the rest kept in order. */
  ghost predicate IsSubsequence<T>(r: seq<T>, s: seq<T>)
    decreases |s|
  {
    if |r| == 0 then true
    else if |s| == 0 then false
    else (r[0] == s[0] && IsSubsequence(r[1..], s[1..])) || IsSubsequence(r, s[1..])
  }

  /** Filtering deletes elements and never reorders the survivors. */
  lemma {:induction false} FilterIsSubsequence<T>(p: T -> bool, s: seq<T>)
    ensures IsSubsequence(Filter(p, s), s)
    decreases |s|
  {
    if |s| > 0 {
      var rest := Filter(p, s[1..]);
      FilterIsSubsequence(p, s[1..]);
      if p(s[0]) {
        assert Filter(p, s) == [s[0]] + rest;
        assert ([s[0]] + rest)[1..] == rest;
      } else {
        assert Filter(p, s) == rest;
        SubsequenceOfTail(rest, s);
      }
    }
  }

  /** A subsequence of the tail is a subsequence of the whole. */
  lemma {:induction false} SubsequenceOfTail<T>(r: seq<T>, s: seq<T>)
    requires |s| > 0
    requires IsSubsequence(r, s[1..])
    ensures IsSubsequence(r, s)
  {
  }

  /** Filtering a concatenation filters each part: the survivors of `a` all
      come before the survivors of `b`. */
  lemma {:induction false} FilterAppend<T>(p: T -> bool, a: seq<T>, b: seq<T>)
    ensures Filter(p, a + b) == Filter(p, a) + Filter(p, b)
    decreases |a|
  {
    if |a| > 0 {
      assert (a + b)[0] == a[0];
      assert (a + b)[1..] == a[1..] + b;
      FilterAppend(p, a[1..], b);
    } else {
      assert a + b == b;
    }
  }

  /** When every element passes, filtering changes nothing. */
  lemma {:induction false} FilterKeepsAll<T>(p: T -> bool, s: seq<T>)
    requires forall i :: 0 <= i < |s| ==> p(s[i])
    ensures Filter(p, s) == s
    decreases |s|
  {
    if |s| > 0 {
      assert s == [s[0]] + s[1..];
      FilterKeepsAll(p, s[1..]);
    }
  }

  /** Filtering a duplicate-free sequence leaves it duplicate-free. */
  lemma {:induction false} FilterDistinct<T>(p: T -> bool, s: seq<T>)
    requires Distinct(s)
    ensures Distinct(Filter(p, s))
    decreases |s|
  {
    if |s| > 0 {
      var rest := Filter(p, s[1..]);
      assert Distinct(s[1..]) by {
        forall i, j | 0 <= i < j < |s[1..]| ensures s[1..][i] != s[1..][j] {
          assert s[1..][i] == s[i + 1] && s[1..][j] == s[j + 1];
        }
      }
      FilterDistinct(p, s[1..]);
      if p(s[0]) {
        assert s[0] !in s[1..] by {
          forall k | 0 <= k < |s[1..]| ensures s[1..][k] != s[0] {
            assert s[1..][k] == s[k + 1];
          }
        }
        assert s[0] !in rest;
        var r := [s[0]] + rest;
        forall i, j | 0 <= i < j < |r| ensures r[i] != r[j] {
          if i == 0 {
            assert r[j] == rest[j - 1];
            assert rest[j - 1] in rest;
          } else {
            assert r[i] == rest[i - 1] && r[j] == rest[j - 1];
          }
        }
      }
    }
  }
}

=== FILE: strings.dfy ===
/** The parts of Python's `str` that the labelling and column-naming code
    relies on: lower-casing, the `in` substring test, and `str()` of an int. */
module Strings {

  predicate IsUpper(c: char) { 'A' <= c <= 'Z' }

  predicate IsDigit(c: char) { '0' <= c <= '9' }

  /** `c.lower()` for one character, on the ASCII letters. */
  function LowerChar(c: char): (r: char)
    ensures !IsUpper(r)
    ensures IsUpper(c) ==> r as int == c as int + 32
    ensures !IsUpper(c) ==> r == c
  {
    if IsUpper(c) then (c as int + 32) as char else c
  }

  /** `s.lower()`: every character lower-cased, position by position. */
  function Lower(s: string): (r: string)
    ensures |r| == |s|
    ensures forall i :: 0 <= i < |s| ==> r[i] == LowerChar(s[i])
  {
    seq(|s|, i requires 0 <= i < |s| => LowerChar(s[i]))
  }

  /** The same character, or the same ASCII letter in the other case. */
  ghost predicate SameLetter(a: char, b: char) {
    || a == b
    || (IsUpper(a) && b as int == a as int + 32)
    || (IsUpper(b) && a as int == b as int + 32)
  }

  /** `s` and `t` spell the same text up to the case of their letters. */
  ghost predicate EqualIgnoringCase(s: string, t: string) {
    |s| == |t| && forall i :: 0 <= i < |s| ==> SameLetter(s[i], t[i])
  }

  /** Lower-casing twice is lower-casing once. */
  lemma LowerIdempotent(s: string)
    ensures Lower(Lower(s)) == Lower(s)
  {
    assert forall i :: 0 <= i < |s| ==> Lower(Lower(s))[i] == Lower(s)[i];
  }

  /** Two strings lower-case to the same text exactly when they differ only in
      the case of their letters. */
  lemma LowerEqualIffIgnoringCase(s: string, t: string)
    ensures EqualIgnoringCase(s, t) <==> Lower(s) == Lower(t)
  {
    if EqualIgnoringCase(s, t) {
      assert forall i :: 0 <= i < |s| ==> Lower(s)[i] == Lower(t)[i];
    }
    if Lower(s) == Lower(t) {
      forall i | 0 <= i < |s|
        ensures SameLetter(s[i], t[i])
      {
        assert LowerChar(s[i]) == LowerChar(t[i]);
      }
    }
  }

  /** `sub` occurs in `s` starting at index `i`. */
  ghost predicate OccursAt(s: string, sub: string, i: int) {
    0 <= i && i + |sub| <= |s| && s[i..i + |sub|] == sub
  }

  /** Python's `sub in s`, scanning `s` from the left. */
  function Contains(s: string, sub: string): bool
    decreases |s|
  {
    if |sub| > |s| then false
    else if s[..|sub|] == sub then true
    else Contains(s[1..], sub)
  }

  /** The scan finds `sub` exactly when `sub` occurs somewhere in `s`. */
  lemma {:induction false} ContainsIffOccurs(s: string, sub: string)
    ensures Contains(s, sub) <==> exists i :: OccursAt(s, sub, i)
    decreases |s|
  {
    if |sub| > |s| {
      assert forall i :: !OccursAt(s, sub, i);
    } else if s[..|sub|] == sub {
      assert OccursAt(s, sub, 0);
    } else {
      var t := s[1..];
      ContainsIffOccurs(t, sub);
      if i :| OccursAt(t, sub, i) {
        assert s[i + 1..i + 1 + |sub|] == t[i..i + |sub|];
        assert OccursAt(s, sub, i + 1);
      }
      if i :| OccursAt(s, sub, i) {
        assert i != 0;
        assert t[i - 1..i - 1 + |sub|] == s[i..i + |sub|];
        assert OccursAt(t, sub, i - 1);
      }
    }
  }

  /** The character for a decimal digit. */
  function DigitChar(d: nat): (c: char)
    requires d < 10
    ensures IsDigit(c)
  {
    ('0' as int + d) as char
  }

  /** The value of a decimal digit character. */
  function DigitValue(c: char): (d: nat)
    requires IsDigit(c)
    ensures d < 10
  {
    c as int - '0' as int
  }

  /** `str(n)` for a non-negative int: its decimal digits, most significant
      first, with no leading zero. */
  function NatToString(n: nat): (r: string)
    ensures |r| >= 1
    ensures forall i :: 0 <= i < |r| ==> IsDigit(r[i])
    ensures r[0] == '0' ==> n == 0
    decreases n
  {
    if n < 10 then [DigitChar(n)] else NatToString(n / 10) + [DigitChar(n % 10)]
  }

  /** `int(s)` on a string of decimal digits. */
  function ParseNat(s: string): nat
    requires forall i :: 0 <= i < |s| ==> IsDigit(s[i])
  {
    if |s| == 0 then 0 else ParseNat(s[..|s| - 1]) * 10 + DigitValue(s[|s| - 1])
  }

  /** Reading the decimal rendering back gives the number: `int(str(n)) == n`. */
  lemma {:induction false} ParseNatToString(n: nat)
    ensures ParseNat(NatToString(n)) == n
    decreases n
  {
    if n >= 10 {
      var p := NatToString(n / 10);
      var r := NatToString(n);
      assert r == p + [DigitChar(n % 10)];
      assert r[..|r| - 1] == p;
      ParseNatToString(n / 10);
    }
  }

  /** Distinct numbers have distinct decimal renderings. */
  lemma NatToStringInjective()
    ensures forall a: nat, b: nat :: NatToString(a) == NatToString(b) ==> a == b
  {
    forall a: nat, b: nat | NatToString(a) == NatToString(b)
      ensures a == b
    {
      ParseNatToString(a);
      ParseNatToString(b);
    }
  }

  /** `str(i)` for any int: a minus sign before the digits of a negative one. */
  function IntToString(i: int): (r: string)
    ensures |r| >= 1
    ensures i >= 0 ==> r == NatToString(i)
    ensures i < 0 ==> r == "-" + NatToString(-i)
    ensures r[0] == '-' <==> i < 0
  {
    if i < 0 then "-" + NatToString(-i) else NatToString(i)
  }
}

=== FILE: wrappers.dfy ===
/** Failure-carrying wrappers: an absent value (`None` in Python, `NaN` in a
    table cell), and a value-or-exception. */
module Wrappers {

  /** A value that may be absent. */
  datatype Option<+T> = None | Some(value: T)

  /** The outcome of a call that either returns a value or raises. */
  datatype Result<+T, +E> = Success(value: T) | Failure(error: E)
}
